=== FILE: README.md ===
# Job-board backend: route handlers over an in-memory store

This project models the HTTP route handlers of a small job-board backend.
Employers register companies and publish vacancies. Job seekers sign up, log
in, keep resumes and apply to vacancies. The project also defines a
bearer-token middleware (`authenticateToken`); no router in this revision
applies it, so the model treats it on its own. Each handler makes at most
one or two existence checks (many make none), then at most one insert,
partial update or delete, then a reply. The reply is either a status code
with a body or a status code with an error message. The model reproduces
that decision logic step by step against an abstract store.

Layout, one module per file:

- `wrappers.dfy` (`Wrappers`): `Option`. An undefined request-body field is `None`.
- `tables.dfy` (`Tables`): the store as the handlers see it.
  - A table is a sequence of rows plus an auto-increment counter. The
    model keeps the rows in ascending id order and gives each insert the
    counter's value. The program itself leaves both to the database (see
    "## Left out").
  - The operations are the store calls the handlers make: lookup by id,
    first row with a property, filter (`Where`), filter with an `include`
    (`Select`), insert, update and delete.
- `text.dfy` (`Text`): ASCII lower-casing and substring search, for the
  search filter; JavaScript's `split(" ")`, for the Authorization header.
- `store.dfy` (`Store`):
  - the records: users, companies, vacancies, applications, resumes;
  - the reply type `Response`;
  - JavaScript truthiness of optional body fields;
  - the class `Db`, which holds the five tables. The handlers reassign its fields.
- `companies.dfy`, `vacancies.dfy`, `resumes.dfy`, `users.dfy`,
  `applications.dfy`: the handlers of the five routers, one member per
  route.
  - Routes that write are methods that modify the `Db`. Their `ensures`
    give the whole new state and the reply, branch by branch, and say that
    the other tables are unchanged.
  - Routes that only read are functions that read the `Db`.
- `auth.dfy` (`Auth`): the `authenticateToken` middleware, as a pure
  decision that returns either a rejection or the verified payload.

The store can refuse a write: a foreign key, unique or enum constraint, a
missing required field. Whether it does depends on a schema that is not part
of this model, so every write handler takes a boolean `accepted` as a
parameter. When it is false, the handler takes its `catch` branch. An update
or delete of an id that is not in the table is also a store failure. The
handlers that call the store without checking the id first (vacancy update
and delete; company, resume and user update; application status patch) so
reply with their catch status (500, or 400 for users), not 404. Company
delete and resume delete look the id up first and reply 404.

Other collaborators are also parameters:

- bcrypt's `hash` and `compare` are supplied functions.
- `jwt.verify` with the server secret is a supplied function. It returns
  the payload for a good token and `None` for a bad one.

## Model

| member | source | states |
|---|---|---|
| Tables.Lookup | routes/companies.js:252-254 | the row found by id is a stored row with that id; no row found means no stored row has that id |
| Tables.LookupIff | routes/resume.js:93-95 | in an ordered table, lookup by id returns a row exactly when that row is stored |
| Tables.First | routes/user.js:46 | the row found by a unique column is stored and has the value; none found means no row has it |
| Tables.Where | routes/companies.js:254-257 | a filter returns only stored rows that pass it and every stored row that passes it; it keeps the model's id order |
| Tables.WhereAgree | routes/vacancies.js:95-102 | two filters that agree on every row return the same rows |
| Tables.Select | routes/applications.js:51-56 | a `findMany` with `include` returns exactly the passing rows, in the model's id order, each with the related row that its foreign key names |
| Tables.Join | routes/vacancies.js:43-47 | `include` pairs every row, in the model's table order, with the related row that its foreign key names |
| Tables.Insert | routes/companies.js:95-102 | a create appends exactly one row under a fresh id (the counter); existing rows and every other id are untouched; the table invariant is kept |
| Tables.Update | routes/vacancies.js:282-290 | an update gives the row `id` the new value when that row exists; every other id keeps its row; the invariant is kept |
| Tables.Delete | routes/companies.js:439-441 | a delete removes exactly the row `id`; every other row stays; the invariant is kept |
| Text.Lower | routes/vacancies.js:98-99 | ASCII lower-casing keeps the length, maps each ASCII upper-case letter to its lower-case form, keeps every other character, and leaves no ASCII upper-case letter |
| Text.LowerIdempotent | routes/vacancies.js:98-99 | lower-casing twice is lower-casing once |
| Text.LowerAppend | routes/vacancies.js:98-99 | lower-casing distributes over concatenation |
| Text.ContainsIff | routes/vacancies.js:98-99 | substring search holds exactly when the query occurs at some position of the text |
| Text.ContainsMiddle | routes/vacancies.js:98-99 | a text of the form a + q + b contains q |
| Text.Split | routes/authenticateToken.js:6 | `split(" ")` yields at least one piece, and no piece contains a space |
| Text.JoinSplit | routes/authenticateToken.js:6 | joining the pieces of `split(" ")` with single spaces gives back the header |
| Text.SplitNoSpace | routes/authenticateToken.js:6 | a string without spaces splits into itself alone |
| Text.SplitFirst | routes/authenticateToken.js:6 | a space-free word followed by a space splits off as the first piece |
| Companies.Create | routes/companies.js:83-116 | no employer id in the body: the employer lookup fails, 500, nothing changes. Unknown employer: 400 "Employer not found", nothing changes. Store refusal: 500. Otherwise 201 and exactly one company with the given fields is inserted. The users table is unchanged, because the role promotion is never awaited |
| Companies.List | routes/companies.js:160-168 | 200 with every company and nothing else |
| Companies.Get | routes/companies.js:248-269 | 404 "Company not found" exactly when the id is unknown. Otherwise 200 with that company, its employer, and exactly the vacancies whose companyId is that id |
| Companies.Patched | routes/companies.js:363-371 | every defined field overwrites the stored one and every undefined field keeps its value; an empty patch changes nothing |
| Companies.Update | routes/companies.js:347-378 | a truthy employerId naming no user: 400, nothing changes. Unknown company or store refusal: 500 "Could not update company", nothing changes. Otherwise 200 and only that company row receives the patched value |
| Companies.Delete | routes/companies.js:425-448 | unknown id: 404, nothing changes. Store refusal: 500. Otherwise 200 "Company deleted successfully" and exactly that company is removed |
| Vacancies.List | routes/vacancies.js:41-52 | 200 with every vacancy, in the model's table order, each paired with its company |
| Vacancies.MatchesIff | routes/vacancies.js:95-102 | a vacancy matches exactly when the lower-cased query occurs in the lower-cased title or description |
| Vacancies.MatchesIgnoresQueryCase | routes/vacancies.js:95-102 | the case of the query does not change whether a vacancy matches |
| Vacancies.TitleContainingQueryMatches | routes/vacancies.js:95-102 | a title that contains the query verbatim always matches |
| Vacancies.Search | routes/vacancies.js:87-111 | a missing or empty query: 400 "Query parameter is required". Otherwise 200 with exactly the matching vacancies (possibly none), in the model's id order, each with its company |
| Vacancies.SearchIgnoresQueryCase | routes/vacancies.js:95-102 | searching with a query and with its lower-cased form gives the same reply |
| Vacancies.Get | routes/vacancies.js:147-166 | 404 "Vacancy not found" exactly when the id is unknown; otherwise 200 with that vacancy and its company |
| Vacancies.Create | routes/vacancies.js:210-228 | no company check. Store refusal: 500, nothing changes. Otherwise 201 and exactly one vacancy with the given fields is inserted |
| Vacancies.CreateThenGet | routes/vacancies.js:147-228 | a vacancy the store accepts comes back from a fetch by the id in the 201 reply, with the fields as given and its company attached |
| Vacancies.Patched | routes/vacancies.js:282-290 | a field is overwritten only by a truthy value, so an empty string or a salary of 0 keeps the old one; the company never changes |
| Vacancies.Update | routes/vacancies.js:277-296 | unknown id or store refusal: 500, nothing changes. Otherwise 200 and only that row receives the patched value |
| Vacancies.Delete | routes/vacancies.js:319-331 | unknown id or store refusal: 500, nothing changes. Otherwise 200 with the deleted row, and exactly that row is removed |
| Resumes.List | routes/resume.js:43-51 | 200 with every resume and nothing else |
| Resumes.Get | routes/resume.js:89-106 | 404 "Resume not found" exactly when the id is unknown; otherwise 200 with that resume |
| Resumes.Create | routes/resume.js:152-170 | store refusal: 500. Otherwise 201 and exactly one resume is inserted, with the given title, description, skills (same order) and owner |
| Resumes.Patched | routes/resume.js:227-237 | defined title, description and skills overwrite the stored ones; the owner never changes, even when the request supplies one |
| Resumes.Update | routes/resume.js:225-244 | unknown id or store refusal: 500, nothing changes. Otherwise 200 and only that row receives the patched value |
| Resumes.Delete | routes/resume.js:265-286 | unknown id: 404, nothing changes. Store refusal: 500. Otherwise 200 "Resume deleted successfully" and exactly that row is removed |
| Users.Create | routes/user.js:22-39 | replies 200, not 201, with a new row. The row holds hash(password), not the submitted password, and the default role. Store refusal: 500, nothing changes |
| Users.Login | routes/user.js:41-64 | no email in the body: the lookup fails, 500 "Something went wrong", exactly then. With an email: 400 "User not found" exactly when no user has the email. "Invalid password" only when the user's stored digest fails the comparison. Success carries "Login successful" and the user whose email matched and whose digest compares equal, and no token |
| Users.LoginChecksTheUser | routes/user.js:46-59 | with unique emails, logging in as a stored user succeeds exactly when the password compares equal to that user's digest, and otherwise replies "Invalid password" |
| Users.SignUpThenLogIn | routes/user.js:22-64 | signing up with a fresh email and then logging in with the same password succeeds and returns the new row, given that every password compares equal to its own digest |
| Users.Patched | routes/user.js:73-78 | only truthy name, email, password and role are written; a new password is stored verbatim, not hashed |
| Users.Update | routes/user.js:66-85 | unknown id or store refusal: 400 "Could not update user", nothing changes. Otherwise 200 and only that user receives the patched value |
| Applications.Create | routes/applications.js:8-26 | the new application is always PENDING, whatever the body says. Applicant, vacancy and cover letter come from the body, unchecked. 201, or 500 on store refusal |
| Applications.WithStatus | routes/applications.js:33-37 | a supplied status replaces the stored one unconditionally; no other field changes |
| Applications.AnyTransition | routes/applications.js:33-37 | every status can be set from every status, and a transition can be undone |
| Applications.SetStatus | routes/applications.js:29-44 | unknown id or store refusal: 500, nothing changes. Otherwise 200 and only that application's status changes |
| Applications.ListByUser | routes/applications.js:47-63 | 200 with exactly the applications of that user, in the model's id order, each with its vacancy |
| Applications.ListByVacancy | routes/applications.js:66-82 | 200 with exactly the applications for that vacancy, in the model's id order, each with its applicant |
| Auth.BearerToken | routes/authenticateToken.js:5-6 | the token is the second space-separated field of the header, when that field is non-empty. It never contains a space. Any header whose second field is non-empty yields one |
| Auth.TokenIsSecondField | routes/authenticateToken.js:5-6 | whatever the scheme word, a non-empty word after the first space, up to the next space or the end, is the token |
| Auth.TokenShape | routes/authenticateToken.js:5-6 | conversely, every token that is found is such a word: the header is a space-free scheme, a space, the token, then nothing or a space and more |
| Auth.NoSpaceNoToken | routes/authenticateToken.js:6-10 | a header without a space, such as "abc", carries no token |
| Auth.SchemeAloneNoToken | routes/authenticateToken.js:6-10 | the headers "Bearer " and "abc" carry no token |
| Auth.Authenticate | routes/authenticateToken.js:4-19 | no token: 401 "Access token is missing". A token that fails verification: 403 "Invalid or expired token". The request passes on with the verified payload exactly when the token verifies |
| Auth.AnySchemePasses | routes/authenticateToken.js:6-15 | any scheme word in front of a verifying token lets the request through with that token's payload |

## Left out

- Tables.Where, Tables.Select, Tables.Join, Tables.Insert, Tables.Update:
  the program does not order its `findMany` results (no `orderBy`) and does
  not choose ids, so result order and id values are up to the database. The
  model fixes both: rows stay in ascending id order, an updated row keeps
  its place, and a new row takes the counter's value. A refused insert does
  not advance the counter. So the order of list and search replies
  (Vacancies.List, Vacancies.Search, Applications.ListByUser,
  Applications.ListByVacancy) and the exact id in a 201 reply are the
  model's choice. Which rows are returned is not.

- HTTP transport and Express wiring: routing, JSON body parsing, CORS and
  console logging are not modelled. `index.js` is not part of this model.
  This includes how the routers are mounted: one under `/company`, and the
  resume router not mounted at all.
- The database client and its schema. They are replaced by the tables in
  `Tables` and by the `accepted` parameter, which stands for any constraint
  the store enforces. An out-of-range enum value or a missing required field
  among the fields that reach a create or update call is one such refusal.
  A missing field that feeds a lookup instead is modelled explicitly: an
  undefined or null `employerId` in company create, or `email` in login,
  makes the lookup itself fail, so those handlers reply 500 before
  writing anything.
  - Cascading deletes are not modelled: deleting a company removes only the
    company row.
  - Read failures are not modelled. The read handlers reply 500 on a store
    error; the model's reads always succeed.
- The default role: the schema that gives new users their role is not part
  of this model. `Store.DefaultRole` assumes the job-seeker role.
- The role promotion in company create is a query that is never awaited, so
  it never runs. The model leaves the users table unchanged.
- bcrypt: `hash` and `compare` are parameters. Salting and the cost factor
  are not modelled. `Users.Login` does not model the 500 reply that a
  missing password provokes in `compare`.
- No route uses the middleware: `index.js` mounts the routers without it
  and no router imports it. `Auth.Authenticate` is modelled as a decision
  on its own, not composed with any handler.
- JSON Web Tokens: `jwt.verify`, the secret and expiry are one parameter,
  `verify`. `Auth.Authenticate` returns the payload that the middleware
  stores on `req.user` before it calls `next`.
- The user list handler (`routes/user.js:9-20`). Its reply depends on how
  the database client treats `include: { password: false }`, which this
  model does not capture.
- Seeding of the database (`prisma/seed.js`) is not part of this model. It
  is a one-off script with concurrent inserts and no decision logic.
- Path ids are taken as already-parsed integers. `parseInt` of malformed ids
  (NaN) is not modelled.
- Vacancies.MatchesIff: case-insensitivity covers ASCII letters only, not
  the database's Unicode case folding.
- Salary is an integer; non-integer salaries are not modelled.
- Behaviour the code does not have is not claimed. There is no token at
  login, no guard on status transitions, no company check on vacancy create
  and no ownership check on any route.

=== FILE: applications.dfy ===
/** The application routes: create (always PENDING, no checks beforehand),
    status patch (an unconditional overwrite) and the two lists, by applicant
    and by vacancy. */
module Applications {
  import opened Wrappers
  import opened Tables
  import opened Store

  /** The body of a create request. A `status` in the body is read by nobody. */
  datatype NewApplication = NewApplication(userId: int, vacancyId: int, coverLetter: Option<string>, status: Option<Status>)

  /** POST /applications: the new row always starts PENDING, whatever the
      body says; the applicant and the vacancy are taken from the body and
      nothing checks that they exist or that the pair is new. */
  method Create(db: Db, body: NewApplication, accepted: bool) returns (res: Response<Row<Application>>)
    requires db.Valid()
    modifies db
    ensures db.Valid()
    ensures db.users == old(db.users) && db.companies == old(db.companies)
    ensures db.vacancies == old(db.vacancies) && db.resumes == old(db.resumes)
    ensures !accepted ==> res == Err(500, "Something went wrong") && db.applications == old(db.applications)
    ensures accepted ==>
              var a := Application(body.userId, body.vacancyId, body.coverLetter, Pending);
              && res == Ok(201, Row(old(db.applications.next), a))
              && db.applications == Insert(old(db.applications), a)
    ensures res.Ok? ==> res.body.val.status == Pending
  {
    if !accepted {
      return Err(500, "Something went wrong");
    }
    var a := Application(body.userId, body.vacancyId, body.coverLetter, Pending);
    res := Ok(201, Row(db.applications.next, a));
    db.applications := Insert(db.applications, a);
  }

  /** The patch's data: a defined status replaces the stored one, whatever
      that was; every other field stays. */
  function WithStatus(a: Application, status: Option<Status>): (r: Application)
    ensures r.status == (if status.Some? then status.value else a.status)
    ensures r.userId == a.userId && r.vacancyId == a.vacancyId && r.coverLetter == a.coverLetter
  {
    a.(status := status.GetOr(a.status))
  }

  /** No transition is refused: from every status, every status can be reached. */
  lemma AnyTransition(a: Application, s: Status)
    ensures WithStatus(a, Some(s)).status == s
    ensures WithStatus(WithStatus(a, Some(s)), Some(a.status)) == a
  {
  }

  /** PATCH /applications/:id. An unknown id is the store's update failure: 500. */
  method SetStatus(db: Db, id: int, status: Option<Status>, accepted: bool) returns (res: Response<Row<Application>>)
    requires db.Valid()
    modifies db
    ensures db.Valid()
    ensures db.users == old(db.users) && db.companies == old(db.companies)
    ensures db.vacancies == old(db.vacancies) && db.resumes == old(db.resumes)
    ensures Lookup(old(db.applications.rows), id).None? || !accepted ==>
              res == Err(500, "Something went wrong") && db.applications == old(db.applications)
    ensures Lookup(old(db.applications.rows), id).Some? && accepted ==>
              var a := WithStatus(Lookup(old(db.applications.rows), id).value.val, status);
              && res == Ok(200, Row(id, a))
              && db.applications == Tables.Update(old(db.applications), id, a)
  {
    var current := Lookup(db.applications.rows, id);
    if current.None? || !accepted {
      return Err(500, "Something went wrong");
    }
    var a := WithStatus(current.value.val, status);
    db.applications := Tables.Update(db.applications, id, a);
    res := Ok(200, Row(id, a));
  }

  function ByUser(userId: int): Row<Application> -> bool {
    (row: Row<Application>) => row.val.userId == userId
  }

  function ByVacancy(vacancyId: int): Row<Application> -> bool {
    (row: Row<Application>) => row.val.vacancyId == vacancyId
  }

  function VacancyKey(a: Application): int {
    a.vacancyId
  }

  function UserKey(a: Application): int {
    a.userId
  }

  /** GET /applications/user/:userId: exactly the applications of that user,
      in table order, each with its vacancy. */
  function ListByUser(db: Db, userId: int): (r: Response<seq<Joined<Application, Vacancy>>>)
    reads db
    ensures r.Ok? && r.status == 200
    ensures forall k :: 0 <= k < |r.body| ==>
              && r.body[k].row in db.applications.rows
              && r.body[k].row.val.userId == userId
              && r.body[k].related == Lookup(db.vacancies.rows, r.body[k].row.val.vacancyId)
    ensures forall k :: 0 <= k < |db.applications.rows| && db.applications.rows[k].val.userId == userId ==>
              exists j :: 0 <= j < |r.body| && r.body[j].row == db.applications.rows[k]
    ensures Ordered(db.applications.rows) ==> forall i, j :: 0 <= i < j < |r.body| ==> r.body[i].row.id < r.body[j].row.id
  {
    Ok(200, Select(db.applications.rows, ByUser(userId), VacancyKey, db.vacancies.rows))
  }

  /** GET /applications/vacancy/:vacancyId: exactly the applications for that
      vacancy, in table order, each with its applicant. */
  function ListByVacancy(db: Db, vacancyId: int): (r: Response<seq<Joined<Application, User>>>)
    reads db
    ensures r.Ok? && r.status == 200
    ensures forall k :: 0 <= k < |r.body| ==>
              && r.body[k].row in db.applications.rows
              && r.body[k].row.val.vacancyId == vacancyId
              && r.body[k].related == Lookup(db.users.rows, r.body[k].row.val.userId)
    ensures forall k :: 0 <= k < |db.applications.rows| && db.applications.rows[k].val.vacancyId == vacancyId ==>
              exists j :: 0 <= j < |r.body| && r.body[j].row == db.applications.rows[k]
    ensures Ordered(db.applications.rows) ==> forall i, j :: 0 <= i < j < |r.body| ==> r.body[i].row.id < r.body[j].row.id
  {
    Ok(200, Select(db.applications.rows, ByVacancy(vacancyId), UserKey, db.users.rows))
  }
}

=== FILE: auth.dfy ===
/** The bearer-token middleware: take the second space-separated field of the
    Authorization header as the token, reply 401 when there is none, 403 when
    the token does not verify, and otherwise set `req.user` to the verified
    payload and pass the request on. Token verification (a JSON Web Token
    signature and expiry check against the server's secret) is a function the
    caller supplies: a payload for a good token, None for a bad one. */
module Auth {
  import opened Wrappers
  import opened Text

  /** What the middleware does with a request: reply with an error, leaving
      `req.user` unset and not calling `next`, or set `req.user` to the
      payload and call `next` once. */
  datatype Outcome<P> = Reject(status: int, error: string) | Next(user: P)

  /** `authHeader && authHeader.split(" ")[1]`, with the falsy results (no
      header, an empty header, no second field, an empty second field) as None.
      The first field, the scheme, is not looked at. */
  function BearerToken(header: Option<string>): (t: Option<string>)
    ensures t.Some? ==> t.value != "" && ' ' !in t.value
    ensures t.Some? ==> header.Some? && |Split(header.value)| >= 2 && Split(header.value)[1] == t.value
    ensures header.Some? && |Split(header.value)| >= 2 && Split(header.value)[1] != "" ==> t.Some?
  {
    match header
    case None => None
    case Some(h) =>
      if h == "" then None
      else
        var fields := Split(h);
        if |fields| >= 2 && fields[1] != "" then Some(fields[1]) else None
  }

  /** Whatever the first word, a non-empty space-free word after the first
      space is the token. */
  lemma {:induction false} TokenIsSecondField(scheme: string, token: string, rest: string)
    requires ' ' !in scheme && ' ' !in token && token != ""
    requires rest == "" || rest[0] == ' '
    ensures BearerToken(Some(scheme + " " + token + rest)) == Some(token)
  {
    var h := scheme + " " + token + rest;
    assert h == scheme + " " + (token + rest);
    SplitFirst(scheme, token + rest);
    if rest == "" {
      assert token + rest == token;
      SplitNoSpace(token);
    } else {
      assert token + rest == token + " " + rest[1..];
      SplitFirst(token, rest[1..]);
    }
  }

  /** `h` is `scheme`, a space, `t`, then either nothing or a space and more. */
  ghost predicate Shaped(h: string, scheme: string, t: string, rest: string) {
    ' ' !in scheme && (rest == "" || rest[0] == ' ') && h == scheme + " " + t + rest
  }

  /** Conversely, a token is always the stretch between the first space and
      the next space (or the end) of the header. */
  lemma {:induction false} TokenShape(h: string, t: string)
    requires BearerToken(Some(h)) == Some(t)
    ensures exists scheme, rest :: Shaped(h, scheme, t, rest)
  {
    var fields := Split(h);
    JoinSplit(h);
    var scheme := fields[0];
    assert fields == [scheme] + fields[1..];
    assert JoinWithSpaces(fields) == scheme + " " + JoinWithSpaces(fields[1..]);
    var more := fields[2..];
    assert fields[1..] == [t] + more;
    if more == [] {
      assert JoinWithSpaces(fields[1..]) == t;
      var rest := "";
      assert Shaped(h, scheme, t, rest);
    } else {
      assert JoinWithSpaces(fields[1..]) == t + " " + JoinWithSpaces(more);
      var rest := " " + JoinWithSpaces(more);
      assert Shaped(h, scheme, t, rest);
    }
  }

  /** A header without a space carries no token. */
  lemma NoSpaceNoToken(h: string)
    requires ' ' !in h
    ensures BearerToken(Some(h)) == None
  {
    SplitNoSpace(h);
  }

  /** The header "Bearer " has an empty second field, so no token either. */
  lemma SchemeAloneNoToken()
    ensures BearerToken(Some("Bearer ")) == None
    ensures BearerToken(Some("abc")) == None
  {
    assert "Bearer " == "Bearer" + " " + "";
    SplitFirst("Bearer", "");
    NoSpaceNoToken("abc");
  }

  /** `authenticateToken(req, res, next)`. */
  function Authenticate<P>(header: Option<string>, verify: string -> Option<P>): (o: Outcome<P>)
    ensures BearerToken(header).None? ==> o == Reject(401, "Access token is missing")
    ensures BearerToken(header).Some? && verify(BearerToken(header).value).None? ==>
              o == Reject(403, "Invalid or expired token")
    ensures o.Next? <==> BearerToken(header).Some? && verify(BearerToken(header).value).Some?
    ensures o.Next? ==> verify(BearerToken(header).value) == Some(o.user)
  {
    match BearerToken(header)
    case None => Reject(401, "Access token is missing")
    case Some(token) =>
      match verify(token)
      case None => Reject(403, "Invalid or expired token")
      case Some(user) => Next(user)
  }

  /** Any scheme word is accepted in front of a token that verifies. */
  lemma AnySchemePasses<P>(scheme: string, token: string, verify: string -> Option<P>)
    requires ' ' !in scheme && ' ' !in token && token != ""
    requires verify(token).Some?
    ensures Authenticate(Some(scheme + " " + token), verify) == Next(verify(token).value)
  {
    TokenIsSecondField(scheme, token, "");
    assert scheme + " " + token + "" == scheme + " " + token;
  }
}

=== FILE: companies.dfy ===
/** The company routes: create (after checking that the employer exists),
    list, fetch one with its employer and vacancies, partial update (with an
    optional employer check) and delete (after an existence check). */
module Companies {
  import opened Wrappers
  import opened Tables
  import opened Store

  /** The body of a create request. An `employerId` that is undefined or
      null is None: the employer lookup then has no id to look up. */
  datatype NewCompany = NewCompany(name: string, description: string, location: string, employerId: Option<int>)

  /** The body of an update request; None is a field the request left undefined. */
  datatype CompanyPatch = CompanyPatch(name: Option<string>, description: Option<string>,
                                       location: Option<string>, employerId: Option<int>)

  /** A company with its `employer` and `vacancies` included. */
  datatype CompanyDetail = CompanyDetail(company: Row<Company>, employer: Option<Row<User>>, vacancies: seq<Row<Vacancy>>)

  /** The vacancies filter of a company fetch: the vacancy belongs to company `id`. */
  function OfCompany(id: int): Row<Vacancy> -> bool {
    (row: Row<Vacancy>) => row.val.companyId == id
  }

  /** POST /companies. The role promotion the handler starts afterwards is a
      query that is never awaited and so never runs: the users table is left
      as it was. A body without an employer id makes the employer lookup
      itself fail, and the catch replies 500 before anything is written. */
  method Create(db: Db, body: NewCompany, accepted: bool) returns (res: Response<Row<Company>>)
    requires db.Valid()
    modifies db
    ensures db.Valid()
    ensures db.users == old(db.users) && db.vacancies == old(db.vacancies)
    ensures db.applications == old(db.applications) && db.resumes == old(db.resumes)
    ensures body.employerId.None? ==>
              res == Err(500, "Something went wrong") && db.companies == old(db.companies)
    ensures body.employerId.Some? && Lookup(db.users.rows, body.employerId.value).None? ==>
              res == Err(400, "Employer not found") && db.companies == old(db.companies)
    ensures body.employerId.Some? && Lookup(db.users.rows, body.employerId.value).Some? && !accepted ==>
              res == Err(500, "Something went wrong") && db.companies == old(db.companies)
    ensures body.employerId.Some? && Lookup(db.users.rows, body.employerId.value).Some? && accepted ==>
              var c := Company(body.name, body.description, body.location, body.employerId.value);
              && res == Ok(201, Row(old(db.companies.next), c))
              && db.companies == Insert(old(db.companies), c)
  {
    if body.employerId.None? {
      return Err(500, "Something went wrong");
    }
    if Lookup(db.users.rows, body.employerId.value).None? {
      return Err(400, "Employer not found");
    }
    if !accepted {
      return Err(500, "Something went wrong");
    }
    var c := Company(body.name, body.description, body.location, body.employerId.value);
    res := Ok(201, Row(db.companies.next, c));
    db.companies := Insert(db.companies, c);
  }

  /** GET /companies: every company, in table order. */
  function List(db: Db): (r: Response<seq<Row<Company>>>)
    reads db
    ensures r.Ok? && r.status == 200
    ensures forall k :: 0 <= k < |db.companies.rows| ==> db.companies.rows[k] in r.body
    ensures forall k :: 0 <= k < |r.body| ==> r.body[k] in db.companies.rows
  {
    Ok(200, db.companies.rows)
  }

  /** GET /companies/:id, including the employer and the company's vacancies. */
  function Get(db: Db, id: int): (r: Response<CompanyDetail>)
    reads db
    ensures Lookup(db.companies.rows, id).None? <==> r == Err(404, "Company not found")
    ensures r.Ok? ==> r.status == 200 && r.body.company.id == id && r.body.company in db.companies.rows
    ensures r.Ok? ==> r.body.employer == Lookup(db.users.rows, r.body.company.val.employerId)
    ensures r.Ok? ==> forall k :: 0 <= k < |r.body.vacancies| ==>
                        r.body.vacancies[k] in db.vacancies.rows && r.body.vacancies[k].val.companyId == id
    ensures r.Ok? ==> forall k :: 0 <= k < |db.vacancies.rows| && db.vacancies.rows[k].val.companyId == id ==>
                        db.vacancies.rows[k] in r.body.vacancies
  {
    match Lookup(db.companies.rows, id)
    case None => Err(404, "Company not found")
    case Some(c) =>
      Ok(200, CompanyDetail(c, Lookup(db.users.rows, c.val.employerId), Where(db.vacancies.rows, OfCompany(id))))
  }

  /** The update's data: every defined field of the patch overwrites the
      stored one, every undefined field keeps its value. */
  function Patched(c: Company, p: CompanyPatch): (r: Company)
    ensures r.name == (if p.name.Some? then p.name.value else c.name)
    ensures r.description == (if p.description.Some? then p.description.value else c.description)
    ensures r.location == (if p.location.Some? then p.location.value else c.location)
    ensures r.employerId == (if p.employerId.Some? then p.employerId.value else c.employerId)
    ensures p == CompanyPatch(None, None, None, None) ==> r == c
  {
    Company(p.name.GetOr(c.name), p.description.GetOr(c.description),
            p.location.GetOr(c.location), p.employerId.GetOr(c.employerId))
  }

  /** The employer check of an update fires only for a truthy employerId
      (an id of 0 skips it) and fails when no user has that id. */
  predicate EmployerRejected(users: seq<Row<User>>, p: CompanyPatch) {
    TruthyNumber(p.employerId) && Lookup(users, p.employerId.value).None?
  }

  /** PUT /companies/:id. An unknown company surfaces as the store's update
      failure, 500, not as 404. */
  method Update(db: Db, id: int, patch: CompanyPatch, accepted: bool) returns (res: Response<Row<Company>>)
    requires db.Valid()
    modifies db
    ensures db.Valid()
    ensures db.users == old(db.users) && db.vacancies == old(db.vacancies)
    ensures db.applications == old(db.applications) && db.resumes == old(db.resumes)
    ensures EmployerRejected(db.users.rows, patch) ==>
              res == Err(400, "Employer not found") && db.companies == old(db.companies)
    ensures !EmployerRejected(db.users.rows, patch) && (Lookup(old(db.companies.rows), id).None? || !accepted) ==>
              res == Err(500, "Could not update company") && db.companies == old(db.companies)
    ensures !EmployerRejected(db.users.rows, patch) && Lookup(old(db.companies.rows), id).Some? && accepted ==>
              var c := Patched(Lookup(old(db.companies.rows), id).value.val, patch);
              && res == Ok(200, Row(id, c))
              && db.companies == Tables.Update(old(db.companies), id, c)
  {
    if EmployerRejected(db.users.rows, patch) {
      return Err(400, "Employer not found");
    }
    var current := Lookup(db.companies.rows, id);
    if current.None? || !accepted {
      return Err(500, "Could not update company");
    }
    var c := Patched(current.value.val, patch);
    db.companies := Tables.Update(db.companies, id, c);
    res := Ok(200, Row(id, c));
  }

  /** DELETE /companies/:id. Only the company row is removed; what the store
      does to the company's vacancies is not part of this model. */
  method Delete(db: Db, id: int, accepted: bool) returns (res: Response<string>)
    requires db.Valid()
    modifies db
    ensures db.Valid()
    ensures db.users == old(db.users) && db.vacancies == old(db.vacancies)
    ensures db.applications == old(db.applications) && db.resumes == old(db.resumes)
    ensures Lookup(old(db.companies.rows), id).None? ==>
              res == Err(404, "Company not found") && db.companies == old(db.companies)
    ensures Lookup(old(db.companies.rows), id).Some? && !accepted ==>
              res == Err(500, "Something went wrong") && db.companies == old(db.companies)
    ensures Lookup(old(db.companies.rows), id).Some? && accepted ==>
              res == Ok(200, "Company deleted successfully") && db.companies == Tables.Delete(old(db.companies), id)
  {
    if Lookup(db.companies.rows, id).None? {
      return Err(404, "Company not found");
    }
    if !accepted {
      return Err(500, "Something went wrong");
    }
    db.companies := Tables.Delete(db.companies, id);
    res := Ok(200, "Company deleted successfully");
  }
}

=== FILE: resumes.dfy ===
/** The resume routes: list, fetch one, create, update of title, description
    and skills, and delete after an existence check. */
module Resumes {
  import opened Wrappers
  import opened Tables
  import opened Store

  /** The body of a create request. */
  datatype NewResume = NewResume(title: string, description: string, skills: seq<string>, userId: int)

  /** The body of an update request; None is a field the request left
      undefined. The handler reads only title, description and skills, so a
      supplied userId has no effect. */
  datatype ResumePatch = ResumePatch(title: Option<string>, description: Option<string>,
                                     skills: Option<seq<string>>, userId: Option<int>)

  /** GET /resumes: every resume, in table order. */
  function List(db: Db): (r: Response<seq<Row<Resume>>>)
    reads db
    ensures r.Ok? && r.status == 200
    ensures forall k :: 0 <= k < |db.resumes.rows| ==> db.resumes.rows[k] in r.body
    ensures forall k :: 0 <= k < |r.body| ==> r.body[k] in db.resumes.rows
  {
    Ok(200, db.resumes.rows)
  }

  /** GET /resumes/:id. */
  function Get(db: Db, id: int): (r: Response<Row<Resume>>)
    reads db
    ensures Lookup(db.resumes.rows, id).None? <==> r == Err(404, "Resume not found")
    ensures r.Ok? ==> r.status == 200 && r.body.id == id && r.body in db.resumes.rows
  {
    match Lookup(db.resumes.rows, id)
    case None => Err(404, "Resume not found")
    case Some(row) => Ok(200, row)
  }

  /** POST /resumes: the fields are stored as given, the skills in the order given. */
  method Create(db: Db, body: NewResume, accepted: bool) returns (res: Response<Row<Resume>>)
    requires db.Valid()
    modifies db
    ensures db.Valid()
    ensures db.users == old(db.users) && db.companies == old(db.companies)
    ensures db.vacancies == old(db.vacancies) && db.applications == old(db.applications)
    ensures !accepted ==> res == Err(500, "Something went wrong") && db.resumes == old(db.resumes)
    ensures accepted ==>
              var r := Resume(body.title, body.description, body.skills, body.userId);
              && res == Ok(201, Row(old(db.resumes.next), r))
              && db.resumes == Insert(old(db.resumes), r)
  {
    if !accepted {
      return Err(500, "Something went wrong");
    }
    var r := Resume(body.title, body.description, body.skills, body.userId);
    res := Ok(201, Row(db.resumes.next, r));
    db.resumes := Insert(db.resumes, r);
  }

  /** The update's data: defined title, description and skills overwrite the
      stored ones; the owner never changes. */
  function Patched(r: Resume, p: ResumePatch): (r': Resume)
    ensures r'.title == (if p.title.Some? then p.title.value else r.title)
    ensures r'.description == (if p.description.Some? then p.description.value else r.description)
    ensures r'.skills == (if p.skills.Some? then p.skills.value else r.skills)
    ensures r'.userId == r.userId
  {
    Resume(p.title.GetOr(r.title), p.description.GetOr(r.description), p.skills.GetOr(r.skills), r.userId)
  }

  /** PUT /resumes/:id. An unknown id is the store's update failure: 500. */
  method Update(db: Db, id: int, patch: ResumePatch, accepted: bool) returns (res: Response<Row<Resume>>)
    requires db.Valid()
    modifies db
    ensures db.Valid()
    ensures db.users == old(db.users) && db.companies == old(db.companies)
    ensures db.vacancies == old(db.vacancies) && db.applications == old(db.applications)
    ensures Lookup(old(db.resumes.rows), id).None? || !accepted ==>
              res == Err(500, "Something went wrong") && db.resumes == old(db.resumes)
    ensures Lookup(old(db.resumes.rows), id).Some? && accepted ==>
              var r := Patched(Lookup(old(db.resumes.rows), id).value.val, patch);
              && res == Ok(200, Row(id, r))
              && db.resumes == Tables.Update(old(db.resumes), id, r)
  {
    var current := Lookup(db.resumes.rows, id);
    if current.None? || !accepted {
      return Err(500, "Something went wrong");
    }
    var r := Patched(current.value.val, patch);
    db.resumes := Tables.Update(db.resumes, id, r);
    res := Ok(200, Row(id, r));
  }

  /** DELETE /resumes/:id. */
  method Delete(db: Db, id: int, accepted: bool) returns (res: Response<string>)
    requires db.Valid()
    modifies db
    ensures db.Valid()
    ensures db.users == old(db.users) && db.companies == old(db.companies)
    ensures db.vacancies == old(db.vacancies) && db.applications == old(db.applications)
    ensures Lookup(old(db.resumes.rows), id).None? ==>
              res == Err(404, "Resume not found") && db.resumes == old(db.resumes)
    ensures Lookup(old(db.resumes.rows), id).Some? && !accepted ==>
              res == Err(500, "Something went wrong") && db.resumes == old(db.resumes)
    ensures Lookup(old(db.resumes.rows), id).Some? && accepted ==>
              res == Ok(200, "Resume deleted successfully") && db.resumes == Tables.Delete(old(db.resumes), id)
  {
    if Lookup(db.resumes.rows, id).None? {
      return Err(404, "Resume not found");
    }
    if !accepted {
      return Err(500, "Something went wrong");
    }
    db.resumes := Tables.Delete(db.resumes, id);
    res := Ok(200, "Resume deleted successfully");
  }
}

=== FILE: store.dfy ===
/** The records of the job board, the shape of a handler's reply, and the
    database the handlers share: five tables (users, companies, vacancies,
    applications and resumes), each mapping a store-assigned integer id to a
    record. */
module Store {
  import opened Wrappers
  import opened Tables

  datatype Role = JobSeeker | Employer

  datatype Status = Pending | Approved | Rejected

  /** `password` holds whatever the handlers wrote there: a digest after
      sign-up, the submitted text after an update. */
  datatype User = User(name: string, email: string, password: string, role: Role)

  datatype Company = Company(name: string, description: string, location: string, employerId: int)

  datatype Vacancy = Vacancy(title: string, description: string, salary: int, location: string, companyId: int)

  datatype Application = Application(userId: int, vacancyId: int, coverLetter: Option<string>, status: Status)

  datatype Resume = Resume(title: string, description: string, skills: seq<string>, userId: int)

  /** The role a new user row receives from the schema's default. */
  const DefaultRole := JobSeeker

  /** What a handler sends: a status code with a JSON body, or a status code
      with `{ error: message }`. */
  datatype Response<T> = Ok(status: int, body: T) | Err(status: int, error: string)

  /** JavaScript truthiness of an optional string body field: defined and non-empty. */
  predicate TruthyText(o: Option<string>) {
    o.Some? && o.value != ""
  }

  /** JavaScript truthiness of an optional numeric body field: defined and non-zero. */
  predicate TruthyNumber(o: Option<int>) {
    o.Some? && o.value != 0
  }

  /** The shared store. Every handler reads or reassigns these tables. */
  class Db {
    var users: Table<User>
    var companies: Table<Company>
    var vacancies: Table<Vacancy>
    var applications: Table<Application>
    var resumes: Table<Resume>

    ghost predicate Valid()
      reads this
    {
      Tables.Valid(users) && Tables.Valid(companies) && Tables.Valid(vacancies)
      && Tables.Valid(applications) && Tables.Valid(resumes)
    }

    constructor ()
      ensures Valid()
      ensures users.rows == [] && companies.rows == [] && vacancies.rows == []
      ensures applications.rows == [] && resumes.rows == []
    {
      users := Empty();
      companies := Empty();
      vacancies := Empty();
      applications := Empty();
      resumes := Empty();
    }
  }
}

=== FILE: tables.dfy ===
/** The relational store the route handlers talk to, reduced to what they use:
    a table is a sequence of rows in ascending id order, and every insert
    receives the next id of an auto-incrementing counter. The handlers fix
    neither the order of their results nor the ids: this order and this
    counter are the model's choice of one behaviour the database may have. The operations here
    are the store calls the handlers make: find by id, find the first row
    with a property, list rows with a property, insert, update and delete by id. */
module Tables {
  import opened Wrappers

  /** One stored record together with the id the store assigned to it. */
  datatype Row<T> = Row(id: int, val: T)

  /** A table: its rows, and the id that the next insert receives. */
  datatype Table<T> = Table(rows: seq<Row<T>>, next: int)

  /** A table whose rows each carry a related row of another table (an `include`). */
  datatype Joined<A, B> = Joined(row: Row<A>, related: Option<Row<B>>)

  /** Ids strictly increase along the rows, so no id occurs twice. */
  predicate Ordered<T>(rows: seq<Row<T>>) {
    forall i, j :: 0 <= i < j < |rows| ==> rows[i].id < rows[j].id
  }

  /** The table invariant: rows in id order, every id below the counter. */
  ghost predicate Valid<T>(t: Table<T>) {
    Ordered(t.rows) && forall k :: 0 <= k < |t.rows| ==> t.rows[k].id < t.next
  }

  /** A fresh, empty table whose first id is 1. */
  function Empty<T>(): (t: Table<T>)
    ensures Valid(t) && |t.rows| == 0
  {
    Table([], 1)
  }

  lemma OrderedTail<T>(rows: seq<Row<T>>)
    requires Ordered(rows) && rows != []
    ensures Ordered(rows[1..])
    ensures forall k :: 0 <= k < |rows[1..]| ==> rows[0].id < rows[1..][k].id
  {
    forall i, j | 0 <= i < j < |rows[1..]| ensures rows[1..][i].id < rows[1..][j].id {
      assert rows[1..][i] == rows[i + 1] && rows[1..][j] == rows[j + 1];
    }
  }

  // ---------------------------------------------------------------- reads

  /** `findUnique({ where: { id } })`: the row with that id, if any. */
  function Lookup<T>(rows: seq<Row<T>>, id: int): (r: Option<Row<T>>)
    ensures r.Some? ==> r.value in rows && r.value.id == id
    ensures r.None? ==> forall k :: 0 <= k < |rows| ==> rows[k].id != id
  {
    if rows == [] then None
    else if rows[0].id == id then Some(rows[0])
    else Lookup(rows[1..], id)
  }

  /** In an ordered table the row with a given id is unique, so Lookup finds
      exactly the rows that are stored. */
  lemma {:induction false} LookupFinds<T>(rows: seq<Row<T>>, k: int)
    requires Ordered(rows) && 0 <= k < |rows|
    ensures Lookup(rows, rows[k].id) == Some(rows[k])
  {
    if k > 0 {
      OrderedTail(rows);
      assert rows[1..][k - 1] == rows[k];
      LookupFinds(rows[1..], k - 1);
    }
  }

  lemma LookupIff<T>(rows: seq<Row<T>>, row: Row<T>)
    requires Ordered(rows)
    ensures Lookup(rows, row.id) == Some(row) <==> row in rows
  {
    if row in rows {
      var k :| 0 <= k < |rows| && rows[k] == row;
      LookupFinds(rows, k);
    }
  }

  /** `findUnique` on a unique column other than the id: the first row that
      satisfies `keep`, if any. */
  function First<T>(rows: seq<Row<T>>, keep: T -> bool): (r: Option<Row<T>>)
    ensures r.Some? ==> r.value in rows && keep(r.value.val)
    ensures r.None? ==> forall k :: 0 <= k < |rows| ==> !keep(rows[k].val)
  {
    if rows == [] then None
    else if keep(rows[0].val) then Some(rows[0])
    else First(rows[1..], keep)
  }

  /** A row appended after rows that all fail `keep` is the first to pass it. */
  lemma {:induction false} FirstAppend<T>(rows: seq<Row<T>>, x: Row<T>, keep: T -> bool)
    requires forall k :: 0 <= k < |rows| ==> !keep(rows[k].val)
    requires keep(x.val)
    ensures First(rows + [x], keep) == Some(x)
  {
    if rows != [] {
      assert (rows + [x])[1..] == rows[1..] + [x];
      FirstAppend(rows[1..], x, keep);
    }
  }

  /** `findMany({ where })`: the rows that satisfy `keep`, in table order. */
  function Where<T>(rows: seq<Row<T>>, keep: Row<T> -> bool): (r: seq<Row<T>>)
    ensures forall k :: 0 <= k < |r| ==> r[k] in rows && keep(r[k])
    ensures forall k :: 0 <= k < |rows| && keep(rows[k]) ==> rows[k] in r
    ensures Ordered(rows) ==> Ordered(r)
    ensures |r| <= |rows|
  {
    if rows == [] then []
    else
      var rest := Where(rows[1..], keep);
      if keep(rows[0]) then
        assert Ordered(rows) ==> Ordered([rows[0]] + rest) by {
          if Ordered(rows) {
            OrderedTail(rows);
            forall k | 0 <= k < |rest| ensures rows[0].id < rest[k].id {
              assert rest[k] in rows[1..];
            }
          }
        }
        [rows[0]] + rest
      else
        assert Ordered(rows) ==> Ordered(rest) by {
          if Ordered(rows) { OrderedTail(rows); }
        }
        rest
  }

  /** Two filters that agree on every row of a table select the same rows. */
  lemma {:induction false} WhereAgree<T>(rows: seq<Row<T>>, keep: Row<T> -> bool, keep': Row<T> -> bool)
    requires forall k :: 0 <= k < |rows| ==> keep(rows[k]) == keep'(rows[k])
    ensures Where(rows, keep) == Where(rows, keep')
  {
    if rows != [] {
      WhereAgree(rows[1..], keep, keep');
    }
  }

  /** `include`: each row paired with the row of `other` whose id its `key` names. */
  function Join<A, B>(rows: seq<Row<A>>, key: A -> int, other: seq<Row<B>>): (r: seq<Joined<A, B>>)
    ensures |r| == |rows|
    ensures forall k :: 0 <= k < |rows| ==> r[k].row == rows[k] && r[k].related == Lookup(other, key(rows[k].val))
  {
    seq(|rows|, k requires 0 <= k < |rows| => Joined(rows[k], Lookup(other, key(rows[k].val))))
  }

  /** `findMany({ where, include })`: the rows that satisfy `keep`, in table
      order, each with its related row of `other`. */
  function Select<A, B>(rows: seq<Row<A>>, keep: Row<A> -> bool, key: A -> int, other: seq<Row<B>>): (r: seq<Joined<A, B>>)
    ensures forall k :: 0 <= k < |r| ==>
              && r[k].row in rows && keep(r[k].row)
              && r[k].related == Lookup(other, key(r[k].row.val))
    ensures forall k :: 0 <= k < |rows| && keep(rows[k]) ==>
              exists j :: 0 <= j < |r| && r[j].row == rows[k]
    ensures Ordered(rows) ==> forall i, j :: 0 <= i < j < |r| ==> r[i].row.id < r[j].row.id
  {
    var found := Where(rows, keep);
    var joined := Join(found, key, other);
    assert forall k :: 0 <= k < |rows| && keep(rows[k]) ==> exists j :: 0 <= j < |joined| && joined[j].row == rows[k] by {
      forall k | 0 <= k < |rows| && keep(rows[k]) ensures exists j :: 0 <= j < |joined| && joined[j].row == rows[k] {
        var j :| 0 <= j < |found| && found[j] == rows[k];
        assert joined[j].row == found[j];
      }
    }
    joined
  }

  // ---------------------------------------------------------------- writes

  lemma {:induction false} LookupAppend<T>(rows: seq<Row<T>>, x: Row<T>)
    ensures forall id :: Lookup(rows + [x], id) ==
                         if Lookup(rows, id).Some? then Lookup(rows, id) else if x.id == id then Some(x) else None
  {
    if rows != [] {
      assert (rows + [x])[1..] == rows[1..] + [x];
      LookupAppend(rows[1..], x);
    }
  }

  /** `create`: appends the value under the next id and advances the counter. */
  function Insert<T>(t: Table<T>, v: T): (t': Table<T>)
    requires Valid(t)
    ensures Valid(t') && t'.next == t.next + 1
    ensures |t'.rows| == |t.rows| + 1 && t'.rows[..|t.rows|] == t.rows
    ensures Lookup(t.rows, t.next).None?
    ensures Lookup(t'.rows, t.next) == Some(Row(t.next, v))
    ensures forall id :: id != t.next ==> Lookup(t'.rows, id) == Lookup(t.rows, id)
  {
    LookupAppend(t.rows, Row(t.next, v));
    var rows := t.rows + [Row(t.next, v)];
    assert rows[..|t.rows|] == t.rows;
    Table(rows, t.next + 1)
  }

  /** The rows with the value of the row `id` replaced by `v`. */
  function Replace<T>(rows: seq<Row<T>>, id: int, v: T): (r: seq<Row<T>>)
    ensures |r| == |rows|
    ensures forall k :: 0 <= k < |rows| ==> r[k].id == rows[k].id
    ensures forall k :: 0 <= k < |rows| && rows[k].id != id ==> r[k] == rows[k]
  {
    if rows == [] then []
    else [if rows[0].id == id then Row(id, v) else rows[0]] + Replace(rows[1..], id, v)
  }

  lemma {:induction false} LookupReplace<T>(rows: seq<Row<T>>, id: int, v: T)
    ensures forall id' :: Lookup(Replace(rows, id, v), id') ==
                          if id' != id then Lookup(rows, id')
                          else if Lookup(rows, id).Some? then Some(Row(id, v)) else None
  {
    if rows != [] {
      LookupReplace(rows[1..], id, v);
      assert Replace(rows, id, v)[1..] == Replace(rows[1..], id, v);
    }
  }

  /** `update({ where: { id } })`: the row `id`, if present, now holds `v`. */
  function Update<T>(t: Table<T>, id: int, v: T): (t': Table<T>)
    requires Valid(t)
    ensures Valid(t') && t'.next == t.next && |t'.rows| == |t.rows|
    ensures Lookup(t'.rows, id) == if Lookup(t.rows, id).Some? then Some(Row(id, v)) else None
    ensures forall id' :: id' != id ==> Lookup(t'.rows, id') == Lookup(t.rows, id')
  {
    LookupReplace(t.rows, id, v);
    Table(Replace(t.rows, id, v), t.next)
  }

  /** The `Where` filter that keeps every row but the one with id `id`. */
  function Other<T>(id: int): Row<T> -> bool {
    (row: Row<T>) => row.id != id
  }

  lemma {:induction false} LookupWhere<T>(rows: seq<Row<T>>, keep: Row<T> -> bool, id: int)
    requires forall k :: 0 <= k < |rows| && rows[k].id == id ==> keep(rows[k])
    ensures Lookup(Where(rows, keep), id) == Lookup(rows, id)
  {
    if rows != [] {
      LookupWhere(rows[1..], keep, id);
    }
  }

  /** `delete({ where: { id } })`: removes the row `id` and nothing else. */
  function Delete<T>(t: Table<T>, id: int): (t': Table<T>)
    requires Valid(t)
    ensures Valid(t') && t'.next == t.next
    ensures forall k :: 0 <= k < |t'.rows| ==> t'.rows[k] in t.rows && t'.rows[k].id != id
    ensures forall k :: 0 <= k < |t.rows| && t.rows[k].id != id ==> t.rows[k] in t'.rows
    ensures Lookup(t'.rows, id).None?
    ensures forall id' :: id' != id ==> Lookup(t'.rows, id') == Lookup(t.rows, id')
  {
    var rows := Where(t.rows, Other(id));
    assert forall id' :: id' != id ==> Lookup(rows, id') == Lookup(t.rows, id') by {
      forall id' | id' != id ensures Lookup(rows, id') == Lookup(t.rows, id') {
        LookupWhere(t.rows, Other(id), id');
      }
    }
    Table(rows, t.next)
  }
}

=== FILE: text.dfy ===
/** The string operations the handlers rely on: ASCII lower-casing and
    substring search (for the case-insensitive `contains` filter of the
    vacancy search), and JavaScript's `String.prototype.split(" ")` (for the
    Authorization header). */
module Text {

  function LowerChar(c: char): char {
    if 'A' <= c <= 'Z' then (c as int + 32) as char else c
  }

  predicate IsUpper(c: char) {
    'A' <= c <= 'Z'
  }

  /** ASCII lower-casing: every ASCII upper-case letter replaced by its lower-case
      form, every other character kept. */
  function Lower(s: string): (r: string)
    ensures |r| == |s|
    ensures forall i :: 0 <= i < |s| ==> r[i] == LowerChar(s[i])
    ensures forall i :: 0 <= i < |r| ==> !IsUpper(r[i])
  {
    if s == [] then [] else [LowerChar(s[0])] + Lower(s[1..])
  }

  lemma {:induction false} LowerIdempotent(s: string)
    ensures Lower(Lower(s)) == Lower(s)
  {
    if s != [] {
      LowerIdempotent(s[1..]);
      assert Lower(s)[1..] == Lower(s[1..]);
    }
  }

  /** Lower-casing works letter by letter, so it distributes over concatenation. */
  lemma LowerAppend(a: string, b: string)
    ensures Lower(a + b) == Lower(a) + Lower(b)
  {
    assert forall i :: 0 <= i < |a + b| ==> Lower(a + b)[i] == (Lower(a) + Lower(b))[i];
  }

  /** `p` occurs in `s` starting at position `i`. */
  ghost predicate OccursAt(s: string, p: string, i: int) {
    0 <= i && i + |p| <= |s| && s[i..i + |p|] == p
  }

  /** `p` occurs somewhere in `s`. */
  ghost predicate Occurs(s: string, p: string) {
    exists i :: OccursAt(s, p, i)
  }

  predicate StartsWith(s: string, p: string) {
    |p| <= |s| && s[..|p|] == p
  }

  /** Substring search: does `p` occur somewhere in `s`? */
  function Contains(s: string, p: string): (b: bool)
    decreases |s|
  {
    StartsWith(s, p) || (|s| > 0 && Contains(s[1..], p))
  }

  /** A search that succeeds has found an occurrence. */
  lemma {:induction false} ContainsOccurs(s: string, p: string)
    requires Contains(s, p)
    ensures Occurs(s, p)
    decreases |s|
  {
    if StartsWith(s, p) {
      assert OccursAt(s, p, 0);
    } else {
      ContainsOccurs(s[1..], p);
      var i :| OccursAt(s[1..], p, i);
      assert s[1..][i..i + |p|] == s[i + 1..i + 1 + |p|];
      assert OccursAt(s, p, i + 1);
    }
  }

  /** An occurrence at any position is found by the search. */
  lemma {:induction false} OccursAtContains(s: string, p: string, i: int)
    requires OccursAt(s, p, i)
    ensures Contains(s, p)
    decreases i
  {
    if i == 0 {
      assert StartsWith(s, p);
    } else {
      assert s[1..][i - 1..i - 1 + |p|] == s[i..i + |p|];
      OccursAtContains(s[1..], p, i - 1);
    }
  }

  /** Contains agrees with the positional definition of an occurrence, in
      both directions. */
  lemma ContainsIff(s: string, p: string)
    ensures Contains(s, p) <==> Occurs(s, p)
  {
    if Contains(s, p) {
      ContainsOccurs(s, p);
    } else if Occurs(s, p) {
      var i :| OccursAt(s, p, i);
      OccursAtContains(s, p, i);
    }
  }

  /** Every string occurs in any string that has it as a middle part. */
  lemma ContainsMiddle(a: string, p: string, b: string)
    ensures Contains(a + p + b, p)
  {
    var s := a + p + b;
    assert s[|a|..|a| + |p|] == p;
    assert OccursAt(s, p, |a|);
    ContainsIff(s, p);
  }

  /** `s.split(" ")` in JavaScript: the pieces between single spaces, in
      order; a string without spaces gives one piece, and adjacent or
      trailing spaces give empty pieces. */
  function Split(s: string): (r: seq<string>)
    ensures |r| >= 1
    ensures forall k :: 0 <= k < |r| ==> ' ' !in r[k]
  {
    if s == [] then [""]
    else
      var rest := Split(s[1..]);
      if s[0] == ' ' then [""] + rest
      else [[s[0]] + rest[0]] + rest[1..]
  }

  /** `parts.join(" ")`. */
  function JoinWithSpaces(parts: seq<string>): string {
    if parts == [] then ""
    else if |parts| == 1 then parts[0]
    else parts[0] + " " + JoinWithSpaces(parts[1..])
  }

  /** Joining the pieces with single spaces gives back the original string. */
  lemma {:induction false} JoinSplit(s: string)
    ensures JoinWithSpaces(Split(s)) == s
  {
    if s != [] {
      JoinSplit(s[1..]);
      var rest := Split(s[1..]);
      if s[0] == ' ' {
        assert ([""] + rest)[1..] == rest;
        assert s == [' '] + s[1..];
      } else {
        var head := [s[0]] + rest[0];
        var r := [head] + rest[1..];
        if |rest| == 1 {
          assert s == [s[0]] + s[1..];
        } else {
          assert r[1..] == rest[1..];
          assert JoinWithSpaces(rest) == rest[0] + " " + JoinWithSpaces(rest[1..]);
          assert s == [s[0]] + s[1..];
        }
      }
    }
  }

  /** A string without spaces splits into itself alone. */
  lemma {:induction false} SplitNoSpace(s: string)
    requires ' ' !in s
    ensures Split(s) == [s]
  {
    if s != [] {
      assert ' ' !in s[1..] by {
        forall i | 0 <= i < |s[1..]| ensures s[1..][i] != ' ' { assert s[1..][i] == s[i + 1]; }
      }
      SplitNoSpace(s[1..]);
      assert [s[0]] + s[1..] == s;
    }
  }

  /** A space-free first piece followed by a space splits off as the first piece. */
  lemma {:induction false} SplitFirst(a: string, b: string)
    requires ' ' !in a
    ensures Split(a + " " + b) == [a] + Split(b)
  {
    if a == [] {
      assert a + " " + b == [' '] + b;
      assert (a + " " + b)[1..] == b;
    } else {
      assert ' ' !in a[1..] by {
        forall i | 0 <= i < |a[1..]| ensures a[1..][i] != ' ' { assert a[1..][i] == a[i + 1]; }
      }
      SplitFirst(a[1..], b);
      assert (a + " " + b)[1..] == a[1..] + " " + b;
      assert [a[0]] + a[1..] == a;
    }
  }
}

=== FILE: users.dfy ===
/** The user routes: sign-up (the password is hashed before it is stored),
    login (look the user up by email, compare the password against the stored
    digest) and truthy-field partial update. The hash and the comparison are
    bcrypt's; here they are functions the caller supplies. */
module Users {
  import opened Wrappers
  import opened Tables
  import opened Store

  /** The body of a sign-up request. */
  datatype NewUser = NewUser(name: string, email: string, password: string)

  /** The body of an update request; None is a field the request left
      undefined (an empty role string is falsy and reads the same). */
  datatype UserPatch = UserPatch(name: Option<string>, email: Option<string>,
                                 password: Option<string>, role: Option<Role>)

  /** The reply of a successful login: a message and the user row; there is no token. */
  datatype LoginReply = LoginReply(message: string, user: Row<User>)

  /** POST /users: stores the digest `hash(password)` in place of the
      password, and replies 200 with the new row. */
  method Create(db: Db, body: NewUser, hash: string -> string, accepted: bool) returns (res: Response<Row<User>>)
    requires db.Valid()
    modifies db
    ensures db.Valid()
    ensures db.companies == old(db.companies) && db.vacancies == old(db.vacancies)
    ensures db.applications == old(db.applications) && db.resumes == old(db.resumes)
    ensures !accepted ==> res == Err(500, "Something went wrong") && db.users == old(db.users)
    ensures accepted ==>
              var u := User(body.name, body.email, hash(body.password), DefaultRole);
              && res == Ok(200, Row(old(db.users.next), u))
              && db.users == Insert(old(db.users), u)
  {
    var digest := hash(body.password);
    if !accepted {
      return Err(500, "Something went wrong");
    }
    var u := User(body.name, body.email, digest, DefaultRole);
    res := Ok(200, Row(db.users.next, u));
    db.users := Insert(db.users, u);
  }

  function HasEmail(email: string): User -> bool {
    (u: User) => u.email == email
  }

  /** POST /users/login. `compare(password, digest)` is bcrypt's check of a
      password against a stored digest. An `email` that is undefined or null
      is None: the lookup by email then has no key, fails, and the catch
      replies 500. */
  function Login(db: Db, email: Option<string>, password: string, compare: (string, string) -> bool): (r: Response<LoginReply>)
    reads db
    ensures email.None? <==> r == Err(500, "Something went wrong")
    ensures email.Some? ==>
              ((forall k :: 0 <= k < |db.users.rows| ==> db.users.rows[k].val.email != email.value) <==>
               r == Err(400, "User not found"))
    ensures email.Some? && r.Err? ==> r.status == 400 && (r.error == "User not found" || r.error == "Invalid password")
    ensures r == Err(400, "Invalid password") ==>
              && email.Some?
              && exists k :: 0 <= k < |db.users.rows| && db.users.rows[k].val.email == email.value
                               && !compare(password, db.users.rows[k].val.password)
    ensures r.Ok? ==>
              && email.Some? && r.status == 200 && r.body.message == "Login successful"
              && r.body.user in db.users.rows && r.body.user.val.email == email.value
              && compare(password, r.body.user.val.password)
  {
    if email.None? then Err(500, "Something went wrong")
    else
      match First(db.users.rows, HasEmail(email.value))
      case None => Err(400, "User not found")
      case Some(u) =>
        if !compare(password, u.val.password) then Err(400, "Invalid password")
        else Ok(200, LoginReply("Login successful", u))
  }

  /** Emails are unique in the users table. */
  ghost predicate UniqueEmails(rows: seq<Row<User>>) {
    forall i, j :: 0 <= i < j < |rows| ==> rows[i].val.email != rows[j].val.email
  }

  /** When emails are unique, login checks the password of the one user with
      that email: success when it compares equal, "Invalid password" otherwise. */
  lemma LoginChecksTheUser(db: Db, k: int, password: string, compare: (string, string) -> bool)
    requires 0 <= k < |db.users.rows| && UniqueEmails(db.users.rows)
    ensures compare(password, db.users.rows[k].val.password) ==>
              Login(db, Some(db.users.rows[k].val.email), password, compare) ==
              Ok(200, LoginReply("Login successful", db.users.rows[k]))
    ensures !compare(password, db.users.rows[k].val.password) ==>
              Login(db, Some(db.users.rows[k].val.email), password, compare) == Err(400, "Invalid password")
  {
    var rows := db.users.rows;
    var found := First(rows, HasEmail(rows[k].val.email));
    var j :| 0 <= j < |rows| && rows[j] == found.value;
    assert j == k;
  }

  /** The update's data: a field is overwritten only when the supplied value
      is truthy. A new password is stored as given, without hashing. */
  function Patched(u: User, p: UserPatch): (r: User)
    ensures r.name == (if TruthyText(p.name) then p.name.value else u.name)
    ensures r.email == (if TruthyText(p.email) then p.email.value else u.email)
    ensures r.password == (if TruthyText(p.password) then p.password.value else u.password)
    ensures r.role == (if p.role.Some? then p.role.value else u.role)
  {
    User(if TruthyText(p.name) then p.name.value else u.name,
         if TruthyText(p.email) then p.email.value else u.email,
         if TruthyText(p.password) then p.password.value else u.password,
         p.role.GetOr(u.role))
  }

  /** PUT /users/:id. Any store failure, an unknown id among them, replies 400. */
  method Update(db: Db, id: int, patch: UserPatch, accepted: bool) returns (res: Response<Row<User>>)
    requires db.Valid()
    modifies db
    ensures db.Valid()
    ensures db.companies == old(db.companies) && db.vacancies == old(db.vacancies)
    ensures db.applications == old(db.applications) && db.resumes == old(db.resumes)
    ensures Lookup(old(db.users.rows), id).None? || !accepted ==>
              res == Err(400, "Could not update user") && db.users == old(db.users)
    ensures Lookup(old(db.users.rows), id).Some? && accepted ==>
              var u := Patched(Lookup(old(db.users.rows), id).value.val, patch);
              && res == Ok(200, Row(id, u))
              && db.users == Tables.Update(old(db.users), id, u)
  {
    var current := Lookup(db.users.rows, id);
    if current.None? || !accepted {
      return Err(400, "Could not update user");
    }
    var u := Patched(current.value.val, patch);
    db.users := Tables.Update(db.users, id, u);
    res := Ok(200, Row(id, u));
  }

  /** Signing up with an email nobody has and then logging in with the same
      password succeeds and returns the new row, given bcrypt's own promise
      that a password compares equal to its digest. */
  method SignUpThenLogIn(db: Db, body: NewUser, hash: string -> string, compare: (string, string) -> bool)
      returns (created: Response<Row<User>>, login: Response<LoginReply>)
    requires db.Valid()
    requires forall k :: 0 <= k < |db.users.rows| ==> db.users.rows[k].val.email != body.email
    requires forall p :: compare(p, hash(p))
    modifies db
    ensures db.Valid()
    ensures created.Ok? && created.body.val.email == body.email
    ensures login == Ok(200, LoginReply("Login successful", created.body))
  {
    ghost var before := db.users.rows;
    created := Create(db, body, hash, true);
    assert db.users.rows == before + [created.body];
    FirstAppend(before, created.body, HasEmail(body.email));
    login := Login(db, Some(body.email), body.password, compare);
  }
}

=== FILE: vacancies.dfy ===
/** The vacancy routes: list (each with its company), case-insensitive search
    over title or description, fetch one, create, truthy-field partial update
    and delete. None of the writes checks anything before calling the store. */
module Vacancies {
  import opened Wrappers
  import opened Tables
  import opened Text
  import opened Store

  /** The body of a create request. */
  datatype NewVacancy = NewVacancy(title: string, description: string, salary: int, location: string, companyId: int)

  /** The body of an update request; None is a field the request left undefined. */
  datatype VacancyPatch = VacancyPatch(title: Option<string>, description: Option<string>,
                                       salary: Option<int>, location: Option<string>)

  /** The key of a vacancy's `include: { company: true }`. */
  function CompanyKey(v: Vacancy): int {
    v.companyId
  }

  /** GET /vacancies: every vacancy, in table order, each with its company. */
  function List(db: Db): (r: Response<seq<Joined<Vacancy, Company>>>)
    reads db
    ensures r.Ok? && r.status == 200 && |r.body| == |db.vacancies.rows|
    ensures forall k :: 0 <= k < |r.body| ==>
              && r.body[k].row == db.vacancies.rows[k]
              && r.body[k].related == Lookup(db.companies.rows, db.vacancies.rows[k].val.companyId)
  {
    Ok(200, Join(db.vacancies.rows, CompanyKey, db.companies.rows))
  }

  /** The search filter: the query occurs in the title or in the description,
      ignoring the case of ASCII letters. */
  predicate Matches(v: Vacancy, q: string) {
    Contains(Lower(v.title), Lower(q)) || Contains(Lower(v.description), Lower(q))
  }

  function Matching(q: string): Row<Vacancy> -> bool {
    (row: Row<Vacancy>) => Matches(row.val, q)
  }

  /** The filter, stated by positions: some stretch of the lower-cased title
      or description equals the lower-cased query. */
  lemma MatchesIff(v: Vacancy, q: string)
    ensures Matches(v, q) <==> Occurs(Lower(v.title), Lower(q)) || Occurs(Lower(v.description), Lower(q))
  {
    ContainsIff(Lower(v.title), Lower(q));
    ContainsIff(Lower(v.description), Lower(q));
  }

  /** Changing the case of the query does not change what matches. */
  lemma MatchesIgnoresQueryCase(v: Vacancy, q: string)
    ensures Matches(v, Lower(q)) == Matches(v, q)
  {
    LowerIdempotent(q);
  }

  /** A title that contains the query verbatim always matches. */
  lemma TitleContainingQueryMatches(v: Vacancy, a: string, q: string, b: string)
    requires v.title == a + q + b
    ensures Matches(v, q)
  {
    LowerAppend(a, q);
    LowerAppend(a + q, b);
    ContainsMiddle(Lower(a), Lower(q), Lower(b));
  }

  /** GET /vacancies/search?query=. A missing or empty query is refused before
      the store is consulted; otherwise the reply holds exactly the matching
      vacancies, each with its company, and may be empty. */
  function Search(db: Db, query: Option<string>): (r: Response<seq<Joined<Vacancy, Company>>>)
    reads db
    ensures !TruthyText(query) ==> r == Err(400, "Query parameter is required")
    ensures TruthyText(query) ==> r.Ok? && r.status == 200
    ensures TruthyText(query) ==>
              forall k :: 0 <= k < |r.body| ==>
                && r.body[k].row in db.vacancies.rows
                && Matches(r.body[k].row.val, query.value)
                && r.body[k].related == Lookup(db.companies.rows, r.body[k].row.val.companyId)
    ensures TruthyText(query) ==>
              forall k :: 0 <= k < |db.vacancies.rows| && Matches(db.vacancies.rows[k].val, query.value) ==>
                exists j :: 0 <= j < |r.body| && r.body[j].row == db.vacancies.rows[k]
    ensures TruthyText(query) && Ordered(db.vacancies.rows) ==>
              forall i, j :: 0 <= i < j < |r.body| ==> r.body[i].row.id < r.body[j].row.id
  {
    if !TruthyText(query) then
      Err(400, "Query parameter is required")
    else
      Ok(200, Select(db.vacancies.rows, Matching(query.value), CompanyKey, db.companies.rows))
  }

  /** Searching with a query and with its lower-cased form gives the same reply. */
  lemma SearchIgnoresQueryCase(db: Db, q: string)
    ensures Search(db, Some(Lower(q))) == Search(db, Some(q))
  {
    var rows := db.vacancies.rows;
    forall k | 0 <= k < |rows| ensures Matching(Lower(q))(rows[k]) == Matching(q)(rows[k]) {
      MatchesIgnoresQueryCase(rows[k].val, q);
    }
    WhereAgree(rows, Matching(Lower(q)), Matching(q));
  }

  /** GET /vacancies/:id, including the company. */
  function Get(db: Db, id: int): (r: Response<Joined<Vacancy, Company>>)
    reads db
    ensures Lookup(db.vacancies.rows, id).None? <==> r == Err(404, "Vacancy not found")
    ensures r.Ok? ==> r.status == 200 && r.body.row.id == id && r.body.row in db.vacancies.rows
    ensures r.Ok? ==> r.body.related == Lookup(db.companies.rows, r.body.row.val.companyId)
  {
    match Lookup(db.vacancies.rows, id)
    case None => Err(404, "Vacancy not found")
    case Some(v) => Ok(200, Joined(v, Lookup(db.companies.rows, v.val.companyId)))
  }

  /** POST /vacancies. There is no check that the company exists: whatever
      the store refuses (`accepted` false) comes back as 500. */
  method Create(db: Db, body: NewVacancy, accepted: bool) returns (res: Response<Row<Vacancy>>)
    requires db.Valid()
    modifies db
    ensures db.Valid()
    ensures db.users == old(db.users) && db.companies == old(db.companies)
    ensures db.applications == old(db.applications) && db.resumes == old(db.resumes)
    ensures !accepted ==> res == Err(500, "Something went wrong") && db.vacancies == old(db.vacancies)
    ensures accepted ==>
              var v := Vacancy(body.title, body.description, body.salary, body.location, body.companyId);
              && res == Ok(201, Row(old(db.vacancies.next), v))
              && db.vacancies == Insert(old(db.vacancies), v)
  {
    if !accepted {
      return Err(500, "Something went wrong");
    }
    var v := Vacancy(body.title, body.description, body.salary, body.location, body.companyId);
    res := Ok(201, Row(db.vacancies.next, v));
    db.vacancies := Insert(db.vacancies, v);
  }

  /** The update's data: a field is overwritten only when the supplied value
      is truthy, so an empty string or a salary of 0 keeps the stored value;
      the company is never changed. */
  function Patched(v: Vacancy, p: VacancyPatch): (r: Vacancy)
    ensures r.title == (if TruthyText(p.title) then p.title.value else v.title)
    ensures r.description == (if TruthyText(p.description) then p.description.value else v.description)
    ensures r.salary == (if TruthyNumber(p.salary) then p.salary.value else v.salary)
    ensures r.location == (if TruthyText(p.location) then p.location.value else v.location)
    ensures r.companyId == v.companyId
  {
    Vacancy(if TruthyText(p.title) then p.title.value else v.title,
            if TruthyText(p.description) then p.description.value else v.description,
            if TruthyNumber(p.salary) then p.salary.value else v.salary,
            if TruthyText(p.location) then p.location.value else v.location,
            v.companyId)
  }

  /** PUT /vacancies/:id. An unknown id is the store's update failure: 500. */
  method Update(db: Db, id: int, patch: VacancyPatch, accepted: bool) returns (res: Response<Row<Vacancy>>)
    requires db.Valid()
    modifies db
    ensures db.Valid()
    ensures db.users == old(db.users) && db.companies == old(db.companies)
    ensures db.applications == old(db.applications) && db.resumes == old(db.resumes)
    ensures Lookup(old(db.vacancies.rows), id).None? || !accepted ==>
              res == Err(500, "Something went wrong") && db.vacancies == old(db.vacancies)
    ensures Lookup(old(db.vacancies.rows), id).Some? && accepted ==>
              var v := Patched(Lookup(old(db.vacancies.rows), id).value.val, patch);
              && res == Ok(200, Row(id, v))
              && db.vacancies == Tables.Update(old(db.vacancies), id, v)
  {
    var current := Lookup(db.vacancies.rows, id);
    if current.None? || !accepted {
      return Err(500, "Something went wrong");
    }
    var v := Patched(current.value.val, patch);
    db.vacancies := Tables.Update(db.vacancies, id, v);
    res := Ok(200, Row(id, v));
  }

  /** DELETE /vacancies/:id. An unknown id is the store's delete failure:
      500; on success the reply is the deleted row. */
  method Delete(db: Db, id: int, accepted: bool) returns (res: Response<Row<Vacancy>>)
    requires db.Valid()
    modifies db
    ensures db.Valid()
    ensures db.users == old(db.users) && db.companies == old(db.companies)
    ensures db.applications == old(db.applications) && db.resumes == old(db.resumes)
    ensures Lookup(old(db.vacancies.rows), id).None? || !accepted ==>
              res == Err(500, "Something went wrong") && db.vacancies == old(db.vacancies)
    ensures Lookup(old(db.vacancies.rows), id).Some? && accepted ==>
              && res == Ok(200, Lookup(old(db.vacancies.rows), id).value)
              && db.vacancies == Tables.Delete(old(db.vacancies), id)
  {
    var current := Lookup(db.vacancies.rows, id);
    if current.None? || !accepted {
      return Err(500, "Something went wrong");
    }
    db.vacancies := Tables.Delete(db.vacancies, id);
    res := Ok(200, current.value);
  }

  /** A vacancy that the store accepts can be fetched right away under the id
      in the reply, with the fields as given and its company attached. */
  method CreateThenGet(db: Db, body: NewVacancy) returns (created: Response<Row<Vacancy>>, fetched: Response<Joined<Vacancy, Company>>)
    requires db.Valid()
    modifies db
    ensures db.Valid()
    ensures created.Ok? && created.status == 201
    ensures created.body.val == Vacancy(body.title, body.description, body.salary, body.location, body.companyId)
    ensures fetched == Ok(200, Joined(created.body, Lookup(db.companies.rows, body.companyId)))
  {
    created := Create(db, body, true);
    fetched := Get(db, created.body.id);
  }
}

=== FILE: wrappers.dfy ===
/** An optional value, used for request-body fields that may be left undefined
    and for lookups that may find nothing. */
module Wrappers {

  datatype Option<+T> = None | Some(value: T) {

    /** The value carried by Some, or `default` when None. */
    function GetOr(default: T): T {
      match this
      case Some(v) => v
      case None => default
    }
  }
}
